=== FILE: README.md ===
# CRM application rules, modelled in Dafny

This project models the pure rules inside a React Native CRM app for real-estate sales teams. The app's sales staff work leads, meetings and site visits. Its screens hold a few rules that can be stated and proved exactly:

- the greeting for the hour of day;
- the role label;
- a contact's initials;
- the Indian phone format ("+91 XXXXX XXXXX");
- whether a date is today or already past;
- the month selector of the monthly report, a `"YYYY-MM"` string moved one month at a time with year carry;
- the lead list's search box, its four status tabs and its newest-first sort;
- the spreadsheet import, which turns each row into an upload record through ordered fallback column names, drops rows without a name or number, and refuses an empty upload;
- the meeting and visit detail screens:
  - their status display (completed > missed > scheduled);
  - the actions they offer;
  - the service calls behind "Mark as Done" and "Reschedule Only";
  - the suggestion chips.

Everything is a total function over strings, integers and sequences:

- The current time is a parameter (`Dates.Moment`, an hour of day, or an ISO timestamp string).
- A JavaScript value that may be `undefined` or `NaN` is an `Option`.
- Service calls are returned as a list of `Effect` values, in the order the screen awaits them.

Files, one module each:

| file | module | models |
|---|---|---|
| wrappers.dfy | `Wrappers` | `Option` |
| seqs.dfy | `Seqs` | `Array.prototype.filter` and subsequences |
| text.dfy | `Text` | the string built-ins the screens use: ASCII case mapping, `includes`/`indexOf`, `replace` with a string pattern, `split`/`join` on one character, `String(n)`, `padStart(2, '0')`, `Number(s)` |
| dates.dfy | `Dates` | `isToday`, `isPast` |
| helpers.dfy | `Helpers` | greeting, role label, initials, phone format |
| monthly_report.dfy | `MonthlyReport` | month navigation |
| leads.dfy | `Leads` | lead search, status tabs, sort |
| bulk_upload.dfy | `BulkUpload` | row mapping, validity filter, upload guard |
| detail_screens.dfy | `DetailScreens` | the meeting and visit detail screens, one model for both, parameterised by `Kind` |

Some code reads a property whose name differs from the one its declared type gives:

- The lead list sorts by `createdAt`, but the `Lead` type declares `created_at`.
- The visit screen reads `leadId` and `scheduledAt`, but the `Visit` type declares `lead_id` and `scheduled_at`.

The model follows the code: such a property is `Option`-valued, and its absence is handled the way the code would handle `undefined`.

## Model

| member | source | states |
|---|---|---|
| Helpers.Greeting | src/utils/helpers.ts:1-13 | The greeting partitions the hours: morning exactly on [6,12), afternoon on [12,17), evening on [17,21), night on every other hour. |
| Helpers.GreetingMatchesTable | src/utils/helpers.ts:1-13 | Each of the 24 hours gets the greeting an hour-by-hour table lists. |
| Dates.IsToday | src/utils/helpers.ts:36-44 | A date is today exactly when it parses and equals now once its time of day is replaced by now's. |
| Dates.IsTodayIgnoresTimeOfDay | src/utils/helpers.ts:36-44 | Neither the date's nor now's time of day affects `isToday`. |
| Dates.IsPast | src/utils/helpers.ts:46-48 | `isPast` is strict: now itself is not past, and a past date is never after now. An unparseable date is never past. |
| Dates.IsPastByDay | src/utils/helpers.ts:46-48 | A moment is past exactly when its day is earlier, or it is today at an earlier time. |
| Dates.IsPastTrichotomy | src/utils/helpers.ts:46-48 | Of two distinct moments, exactly one is past relative to the other. |
| Dates.IsPastTransitive | src/utils/helpers.ts:46-48 | Being past is transitive. |
| Helpers.RoleLabel | src/utils/helpers.ts:50-58 | The intended label: admin/manager/employee/owner map to their labels, and any other string comes back unchanged. |
| Helpers.RoleLabelChangesOnlyKnownRoles | src/utils/helpers.ts:50-58 | The label differs from the role exactly for the four known roles. |
| Helpers.RoleLabelIdempotent | src/utils/helpers.ts:50-58 | Labelling a label changes nothing. |
| Helpers.RoleLabelCaseSensitive | src/utils/helpers.ts:51-57 | "ADMIN" passes through unchanged while "admin" becomes "Admin". |
| Helpers.RoleLabelAsWritten | src/utils/helpers.ts:57 | `labels[role] \|\| role` yields an inherited `Object.prototype` member exactly for those member names that are not known roles. |
| Helpers.RoleLabelAsWrittenAgreement | src/utils/helpers.ts:50-58 | The code as written agrees with the intended label on every role except the `Object.prototype` member names. |
| Helpers.RoleLabelAsWrittenToString | src/utils/helpers.ts:57 | The role "toString" yields the inherited function where the intended label is "toString". |
| Helpers.HeadsOfSplit | src/utils/helpers.ts:61-64 | Taking the first character of each `split(' ')` segment, empty segments giving nothing, finds exactly the characters a left-to-right scan sees starting a word. |
| Helpers.Initials | src/utils/helpers.ts:60-67 | The initials are the upper-cased word starts, at most two of them and as many as there are words up to two, and "" for the empty name. |
| Helpers.InitialsIgnoreLeadingSpace | src/utils/helpers.ts:61-66 | A leading space (an empty segment) changes nothing. |
| Helpers.InitialsOfTwoWords | src/utils/helpers.ts:60-67 | "first last" gives the upper-cased first letters of both words. |
| Helpers.Digits | src/utils/helpers.ts:71 | Stripping `\D` leaves only decimal digits. |
| Helpers.DigitsKeepsEveryDigit | src/utils/helpers.ts:71 | Stripping `\D` keeps every decimal digit of the input, as often as it occurs and in input order, and nothing else. |
| Helpers.FormatPhone | src/utils/helpers.ts:69-79 | With exactly ten digits d, the result is "+91 " + d[0..5] + " " + d[5..10], 15 characters long. Otherwise the original input comes back, not the stripped digits. |
| Helpers.FormattedDigits | src/utils/helpers.ts:71-75 | A formatted number holds the digits 91 followed by its ten digits. |
| Helpers.FormatPhoneChangesIff | src/utils/helpers.ts:69-79 | Formatting changes the input exactly when it has ten digits. |
| Helpers.FormatPhoneIdempotent | src/utils/helpers.ts:69-79 | Formatting twice is formatting once. |
| MonthlyReport.Navigate | src/screens/MonthlyReportScreen.tsx:30-39 | For any direction the resulting month lies in 1..12. |
| MonthlyReport.NavigateCarry | src/screens/MonthlyReportScreen.tsx:30-39 | Above 12 the month resets to January of the next year. Below 1 it resets to December of the previous year. Otherwise the year stays and the month moves by the direction. |
| MonthlyReport.NavigateMovesOneMonth | src/screens/MonthlyReportScreen.tsx:28-42 | The arrows move to the adjacent calendar month: the running month count changes by exactly ±1. |
| MonthlyReport.NavigateRoundTrip | src/screens/MonthlyReportScreen.tsx:28-42 | Forward then back, and back then forward, each restore the month. |
| MonthlyReport.MonthIndexInjective | src/screens/MonthlyReportScreen.tsx:28-42 | Distinct valid months have distinct running counts. |
| MonthlyReport.MonthString | src/screens/MonthlyReportScreen.tsx:41 | For a month in 1..12 the string ends in '-' and two characters that read back as the month. For a year from 0 on, the part before reads back as the year. |
| MonthlyReport.PaddedMonth | src/screens/MonthlyReportScreen.tsx:20 | `String(m).padStart(2, '0')` for a month m in 1..12 is two characters long and reads back as m. |
| MonthlyReport.ReadMonthString | src/screens/MonthlyReportScreen.tsx:29 | A string without '-' yields only a year, read from the whole string, and no month. A month is read only when the string holds a '-'. |
| MonthlyReport.NavigateMonthString | src/screens/MonthlyReportScreen.tsx:28-42 | When a month was read, the new string ends in '-' and a two-character month in 1..12. When no month was read, it ends in "-NaN". |
| MonthlyReport.ReadMonthStringRoundTrip | src/screens/MonthlyReportScreen.tsx:20-41 | For years from 0 on, splitting the written "YYYY-MM" on '-' and applying `Number` recovers year and month. |
| MonthlyReport.NavigateMonthStringAgrees | src/screens/MonthlyReportScreen.tsx:28-42 | On a well-formed string, the screen's parse-move-write step is `Navigate` on the parsed month. |
| MonthlyReport.NavigateMonthStringRoundTrip | src/screens/MonthlyReportScreen.tsx:28-42 | Pressing forward then back restores the selected string. |
| MonthlyReport.InitialMonthReadsBack | src/screens/MonthlyReportScreen.tsx:18-21 | The initial selection reads back as the clock's year and one-based month. |
| MonthlyReport.ReadNegativeYear | src/screens/MonthlyReportScreen.tsx:29 | A negative year's leading minus is taken for the separator, so the string reads as year 0 and the year's magnitude as the month. |
| Text.ReplaceFirst | src/screens/MeetingDetailScreen.tsx:350 | Without an occurrence the string is unchanged. With one, the length changes by exactly one pattern's worth: one occurrence is replaced, not all. |
| Text.ReplaceFirstLeftmost | src/screens/MeetingDetailScreen.tsx:350 | The replaced occurrence is the leftmost one, and the text around it is kept. |
| Text.Split | src/screens/MonthlyReportScreen.tsx:29 | `split` gives at least one part, no part holds the separator, and joining the parts restores the string. |
| Text.SplitJoin | src/screens/MonthlyReportScreen.tsx:29 | Splitting undoes joining when no part holds the separator. |
| Text.NumberOfNatToString | src/screens/MonthlyReportScreen.tsx:29-41 | `Number(String(n))` is n. |
| Text.NumberOfPadded | src/screens/MonthlyReportScreen.tsx:29-41 | The zero added by `padStart` does not change the value read back. |
| Text.IndexOf | src/screens/LeadsScreen.tsx:94-95 | The search underneath `includes` here and `replace` in src/screens/MeetingDetailScreen.tsx:350: it finds the first occurrence, or none exactly when the pattern occurs nowhere. |
| Text.Contains | src/screens/LeadsScreen.tsx:94-95 | `includes` holds exactly when the pattern occurs somewhere. |
| Leads.MatchesSearch | src/screens/LeadsScreen.tsx:93-95 | A lead matches when the lower-cased query occurs in its lower-cased name, or the query occurs in its phone. The empty query matches every lead. |
| Leads.InBucket | src/screens/LeadsScreen.tsx:97-100 | The All tab shows every status. The New tab keeps exactly new leads, In Progress exactly contacted and interested ones, Closed exactly converted and spam ones. A prospect therefore appears only under All. |
| Leads.Compare | src/screens/LeadsScreen.tsx:104 | The comparator is negative exactly when both timestamps exist and the first is newer, positive exactly when both exist and the first is older. It is 0 (NaN) when either is missing. |
| Leads.FilterLeads | src/screens/LeadsScreen.tsx:92-101 | The filtered list holds exactly the input leads that match the search and the tab, in their input order (a subsequence). Each shown lead occurs as often as in the input; a hidden one does not occur. |
| Leads.EmptySearchShowsAll | src/screens/LeadsScreen.tsx:92-97 | An empty query on the 'all' tab keeps every lead. |
| Leads.BucketsPartition | src/screens/LeadsScreen.tsx:98-100 | The 'new', 'inprogress' and 'closed' tabs give every status except 'prospect' exactly one tab, and 'prospect' none. |
| Leads.ProspectOnlyUnderAll | src/screens/LeadsScreen.tsx:97-101 | A prospect is listed under a tab exactly when the tab is 'all' and the search matches. |
| Leads.NameSearchIgnoresCase | src/screens/LeadsScreen.tsx:94 | Name matching does not depend on the case of the query. |
| Leads.PhoneSearchKeepsCase | src/screens/LeadsScreen.tsx:95 | Phone matching is exact: "x1" finds the phone "x1", and "X1" does not. |
| Leads.Insert | src/screens/LeadsScreen.tsx:102-105 | A sort step adds exactly the inserted lead (multiset). |
| Leads.InsertKeepsNewestFirst | src/screens/LeadsScreen.tsx:102-105 | Inserting a timestamped lead into a newest-first list keeps it newest first. |
| Leads.InsertUnstamped | src/screens/LeadsScreen.tsx:102-105 | Inserting a lead without `createdAt` into already-sorted leads appends it: it compares equal to each of them (NaN read as 0), so it comes before none of them. |
| Leads.SortNewestFirst | src/screens/LeadsScreen.tsx:102-105 | The sort is a permutation. When every lead has a timestamp the result is non-increasing in creation time. When none has one, the order is unchanged. |
| Leads.VisibleLeads | src/screens/LeadsScreen.tsx:92-105 | The shown list is a reordering of the filtered list, with the same multiplicities. It is no longer than the input and is newest first when every lead has a timestamp. |
| BulkUpload.FirstTruthy | src/screens/BulkUploadScreen.tsx:68-73 | `row[c0] \|\| row[c1] \|\| …` yields the cell of the first column whose cell is non-empty, or nothing when there is none. |
| BulkUpload.MapRow | src/screens/BulkUploadScreen.tsx:67-74 | Each field takes the first non-empty cell among its fallback columns, in the source's order, else "". `assignTo` falls back to null. |
| BulkUpload.PreferredColumnWins | src/screens/BulkUploadScreen.tsx:68 | A filled 'Customer Name' cell wins over the later name columns. |
| BulkUpload.MapRows | src/screens/BulkUploadScreen.tsx:67 | Mapping yields exactly one record per row, in row order. |
| BulkUpload.ValidRecords | src/screens/BulkUploadScreen.tsx:77-79 | The kept records are the valid ones, in their original order, each as often as it occurred. |
| BulkUpload.ParseSheet | src/screens/BulkUploadScreen.tsx:67-79 | The records a sheet yields are exactly the valid mapped records, in row order. Each valid record occurs as often as among the mapped rows. |
| BulkUpload.IsValid | src/screens/BulkUploadScreen.tsx:78 | A record is kept exactly when both its name and its number are non-empty strings. |
| BulkUpload.OnlyNameAndNumberDecide | src/screens/BulkUploadScreen.tsx:77-79 | Two records with the same name and number are kept or dropped together: configuration, location, remark and assignee never decide. |
| BulkUpload.RowKeptIff | src/screens/BulkUploadScreen.tsx:68-79 | A row survives exactly when some name column and some number column hold a non-empty cell. |
| BulkUpload.HandleUpload | src/screens/BulkUploadScreen.tsx:98-120 | Zero records are refused with "No Records" and nothing is sent. Otherwise the request carries the records, the type, and the part of the timestamp before 'T'. |
| BulkUpload.SheetWithoutValidRowsIsRefused | src/screens/BulkUploadScreen.tsx:77-102 | A sheet with no valid row leads to the "No Records" alert. |
| BulkUpload.UploadDateOfIsoTimestamp | src/screens/BulkUploadScreen.tsx:114 | For an ISO timestamp "dateTtime", the date sent is "date". |
| DetailScreens.StatusLabel | src/screens/MeetingDetailScreen.tsx:107-127 | Precedence: completed whatever the time, else missed when scheduled strictly before now, else scheduled. |
| DetailScreens.StatusColor | src/screens/MeetingDetailScreen.tsx:97-101 | The status colour follows the same precedence: success, then red for past, then blue. |
| DetailScreens.Display | src/screens/MeetingDetailScreen.tsx:107-167 | The badge text, badge variant, status text and status colour together show exactly the state `StatusLabel` picks: COMPLETED/success/Completed/theme success, MISSED/backlog/Missed/#F44336, or SCHEDULED/meeting/Scheduled/#2196F3. The visit screen uses the same precedence, words and colours (VisitDetailScreen.tsx lines 107-184). |
| DetailScreens.CompletedAtAnyTime | src/screens/MeetingDetailScreen.tsx:108-126 | A completed appointment shows as completed at any time. |
| DetailScreens.NotMissedAtScheduledTime | src/screens/MeetingDetailScreen.tsx:107 | At its own scheduled moment, or without a parseable date, an appointment is not missed. |
| DetailScreens.MissedStaysMissed | src/screens/MeetingDetailScreen.tsx:107-126 | Once missed, an open appointment stays missed. |
| DetailScreens.CancelledShownByTime | src/screens/MeetingDetailScreen.tsx:108-126 | A cancelled appointment is never shown as completed. |
| DetailScreens.ActionsOffered | src/screens/MeetingDetailScreen.tsx:274 | The action buttons are offered exactly when the appointment is not completed. |
| DetailScreens.ActionsOfferedIffNotShownCompleted | src/screens/VisitDetailScreen.tsx:291 | Actions are offered exactly when the badge does not say COMPLETED. |
| DetailScreens.RemarkArgument | src/screens/MeetingDetailScreen.tsx:83-87 | Empty text is passed as no remark, and any other text as itself. |
| DetailScreens.CompleteMutation | src/screens/MeetingDetailScreen.tsx:44-49 | Completion always comes first. A second call writes Prefix + remark exactly when the remark is non-empty and a lead id is present. |
| DetailScreens.ConfirmDone | src/screens/VisitDetailScreen.tsx:44-87 | "Mark as Done" always completes, and issues at most two calls. It also writes the remark with the screen's word iff the text is non-empty and the lead id is present. |
| DetailScreens.RescheduleMutation | src/screens/MeetingDetailScreen.tsx:63-68 | Without a lead id the mutation fails with "No lead ID" and writes nothing. Otherwise it writes exactly Prefix + text. |
| DetailScreens.ConfirmReschedule | src/screens/VisitDetailScreen.tsx:64-95 | Empty text raises the "Please enter reschedule time" alert with no update. Without a lead id the call fails. Otherwise exactly one remark update "Visit "/"Meeting " + text is issued. |
| DetailScreens.RemarkFor | src/screens/MeetingDetailScreen.tsx:48-67 | The written remark starts with the screen's word, and the typed text follows unchanged. |
| DetailScreens.RescheduleWritesDoneRemark | src/screens/MeetingDetailScreen.tsx:43-95 | Rescheduling issues a call exactly when "Mark as Done" would also write a remark, and it writes the same one. |
| DetailScreens.NoRemarkWithoutTextOrLead | src/screens/VisitDetailScreen.tsx:47-90 | With empty text or no lead id, neither action writes a remark. |
| DetailScreens.RemarksCarryText | src/screens/VisitDetailScreen.tsx:48-67 | Every remark written carries the lead id, the screen's word and the non-empty typed text. |
| DetailScreens.DialogButtons | src/screens/MeetingDetailScreen.tsx:368-376 | "Reschedule Only" is shown exactly when text has been typed. |
| DetailScreens.RescheduleOnlyNeverAlerts | src/screens/VisitDetailScreen.tsx:89-393 | The empty-text alert cannot be reached from the dialog, because the button is hidden exactly when the alert would fire. |
| DetailScreens.ChipText | src/screens/MeetingDetailScreen.tsx:350-352 | A chip's text is never longer than its suggestion. |
| Text.ReplaceFirstAbsent | src/screens/MeetingDetailScreen.tsx:350 | `replace` without an occurrence returns its input. |
| Text.ReplaceFirstAtStart | src/screens/MeetingDetailScreen.tsx:350 | `replace` removes an occurrence at the very start. |
| DetailScreens.ChipTextDropsPrefix | src/screens/VisitDetailScreen.tsx:367-369 | A suggestion of the form "Meeting t" or "Visit t", where t mentions neither word, shows as t. |
| DetailScreens.ChipTextPlain | src/screens/MeetingDetailScreen.tsx:350-352 | Text mentioning neither word shows as it is. |
| DetailScreens.ChipThenRescheduleWritesSuggestion | src/screens/MeetingDetailScreen.tsx:89-350 | Tapping the chip for "Meeting t" (or "Visit t") and then rescheduling writes the suggestion itself as the remark. |
| Seqs.Slice | src/screens/MeetingDetailScreen.tsx:346 | `slice` clamps its bounds to the length and keeps the elements in order. |
| DetailScreens.Chips | src/screens/VisitDetailScreen.tsx:363 | Meetings show chips for suggestions 1-2 and visits for 3-4, as many as exist, each shown by `ChipText`. |
| DetailScreens.VisitChipsSkipTwo | src/screens/MeetingDetailScreen.tsx:346 | A visit shows the chips a meeting would show for the suggestion list without its first two entries. With two suggestions or fewer a visit shows no chip. |
| Seqs.FilterKeeps | src/screens/LeadsScreen.tsx:92 | `filter` keeps a subsequence, and each passing element keeps its multiplicity. |
| Seqs.FilterMembers | src/screens/BulkUploadScreen.tsx:77 | An element is in the filtered list exactly when it is in the input and passes. |

## Left out

- Locale formatting is not modelled: `formatDate`, `formatTime`, `formatDateTime`, `formatDisplayDate`, `formatMonthDisplay`. They depend on `toLocaleDateString` and `toLocaleTimeString`.
- `extractTimeFromRemark` and `getRemarkFormatSuggestions` are not modelled: the screens import them from `src/utils/helpers.ts`, which does not define them, so their behaviour is unknown. The suggestions are a parameter of `DetailScreens.Chips`.
- There is no role-tier predicate: the code has no such rule, only single equality checks on the role.
- The float percentages of the targets and reports screens (`Math.round` over division) are not modelled.
- Services, the HTTP client, storage, permissions and the auth context are not modelled. Service calls appear only as `DetailScreens.Effect` values, and the bulk upload as `BulkUpload.UploadRequest`. A service call that throws, and so stops a later call, is not modelled.
- Reading the spreadsheet file is not modelled (document picker, `FileReader`, XLSX parsing). The model starts from the parsed rows.
- Rendering, navigation, styles, theme values, query-cache invalidation and success alerts are not modelled. The same goes for the confirmation dialog's wording, and the `'20'` alpha suffix added to the status colour.
- Lead resolution on the detail screens (`meeting?.lead || leads?.find(...)`) is not modelled, and neither are the quick-action buttons.
- Text.Lower: case mapping covers ASCII letters only. `toLowerCase`/`toUpperCase` on other scripts is not modelled.
- Text.NumberOf: `Number(s)` is given a value only for "" and for runs of decimal digits. Whitespace, signs, exponents and hex are read as `NaN`; well-formed month strings never contain them.
- BulkUpload.MapRow: cells are strings. A numeric cell, for which 0 is falsy and `String(...)` is applied to the number, is not modelled.
- Dates.Before: moments compare by their local calendar fields. Time zones and daylight-saving shifts are not modelled.
- Leads.SortNewestFirst: when only some leads have `createdAt`, the comparator is inconsistent and the order is implementation-defined. Only permutation is claimed for that case.
- MonthlyReport.Navigate: for directions other than ±1 it states only what the code does (a single reset), not an arithmetic month shift. The screen only uses ±1.
- MonthlyReport.ReadMonthStringRoundTrip: holds for years from 0 on. A negative year does not read back, as `ReadNegativeYear` shows.
- Helpers.Initials: characters are Unicode scalar values, while JavaScript's `n[0]` (src/utils/helpers.ts:63) and `.slice(0, 2)` (src/utils/helpers.ts:66) count UTF-16 code units. For a word starting with a character outside the Basic Multilingual Plane, such as "😀 Bob", the source yields a lone surrogate where the model takes the whole character.

## Findings

| source | as written | input that shows it | evidently intended | confidence | as-written member | corrected member |
|---|---|---|---|---|---|---|
| src/utils/helpers.ts:57 | `labels[role] \|\| role` looks the role up on an object literal, which also finds members inherited from `Object.prototype` | role "toString" (also "constructor", "valueOf", "__proto__", …) | unknown roles, these included, are returned unchanged | high; not executed | Helpers.RoleLabelAsWritten | Helpers.RoleLabel |

=== FILE: bulk_upload.dfy ===
/** The spreadsheet import of `src/screens/BulkUploadScreen.tsx`, from the
    rows `XLSX.utils.sheet_to_json` yields: each row becomes one upload
    record by fallback column names, records lacking a name or a number are
    dropped, and an empty set of records is never uploaded. */
module BulkUpload {
  import opened Wrappers
  import opened Text
  import Seqs

  /** A parsed spreadsheet row: column header to cell text. */
  type Row = map<string, string>

  /** `LeadType` of `src/types/index.ts`: 'lead' or 'data'. */
  datatype LeadType = LeadRecords | DataRecords

  /** `BulkUploadRecord` of `src/types/index.ts`; `assignTo` is `None` for
      `null`. */
  datatype UploadRecord = UploadRecord(
    customerName: string,
    customerNumber: string,
    configuration: string,
    location: string,
    remark: string,
    assignTo: Option<string>)

  // The column names each field is read from, in the order they are tried.
  const NameColumns: seq<string> := ["Customer Name", "Name", "name"]
  const NumberColumns: seq<string> := ["Customer Number", "Phone", "phone", "Mobile"]
  const ConfigurationColumns: seq<string> := ["Configuration", "Config", "configuration"]
  const LocationColumns: seq<string> := ["Location", "location", "Area"]
  const RemarkColumns: seq<string> := ["Remark", "remark", "Notes"]
  const AssignColumns: seq<string> := ["Assign To", "assignTo", "Assigned To"]

  /** `row[column]` is truthy: present and not the empty string. */
  predicate Truthy(row: Row, column: string) {
    column in row && row[column] != ""
  }

  /** `cols[i]` is the first column of `cols` whose cell is truthy. */
  ghost predicate FirstTruthyAt(row: Row, cols: seq<string>, i: int) {
    && 0 <= i < |cols|
    && Truthy(row, cols[i])
    && forall j :: 0 <= j < i ==> !Truthy(row, cols[j])
  }

  /** `row[c0] || row[c1] || ...`: the first truthy cell, `None` when every
      one of them is missing or empty. */
  function FirstTruthy(row: Row, cols: seq<string>): (r: Option<string>)
    ensures r.None? <==> forall i :: 0 <= i < |cols| ==> !Truthy(row, cols[i])
    ensures r.Some? ==> exists i :: FirstTruthyAt(row, cols, i) && r.value == row[cols[i]]
    decreases |cols|
  {
    if |cols| == 0 then None
    else if Truthy(row, cols[0]) then
      assert FirstTruthyAt(row, cols, 0);
      Some(row[cols[0]])
    else
      var rest := FirstTruthy(row, cols[1..]);
      assert forall i :: 1 <= i < |cols| ==> cols[1..][i - 1] == cols[i];
      assert rest.Some? ==> exists i :: FirstTruthyAt(row, cols, i) && rest.value == row[cols[i]] by {
        if rest.Some? {
          var k :| FirstTruthyAt(row, cols[1..], k) && rest.value == row[cols[1..][k]];
          assert FirstTruthyAt(row, cols, k + 1);
        }
      }
      rest
  }

  /** A cell read with fallbacks: the first truthy cell of `cols`, or
      `default` when there is none. */
  ghost predicate ReadWithFallback(row: Row, cols: seq<string>, v: string, default: string) {
    || (v == default && forall i :: 0 <= i < |cols| ==> !Truthy(row, cols[i]))
    || (exists i :: FirstTruthyAt(row, cols, i) && v == row[cols[i]])
  }

  /** The `jsonData.map(...)` callback: one record from one row. */
  function MapRow(row: Row): (r: UploadRecord)
    ensures ReadWithFallback(row, NameColumns, r.customerName, "")
    ensures ReadWithFallback(row, NumberColumns, r.customerNumber, "")
    ensures ReadWithFallback(row, ConfigurationColumns, r.configuration, "")
    ensures ReadWithFallback(row, LocationColumns, r.location, "")
    ensures ReadWithFallback(row, RemarkColumns, r.remark, "")
    ensures r.assignTo.None? <==> forall i :: 0 <= i < |AssignColumns| ==> !Truthy(row, AssignColumns[i])
    ensures r.assignTo.Some? ==> exists i :: FirstTruthyAt(row, AssignColumns, i) && r.assignTo.value == row[AssignColumns[i]]
  {
    UploadRecord(
      FirstTruthy(row, NameColumns).GetOr(""),
      FirstTruthy(row, NumberColumns).GetOr(""),
      FirstTruthy(row, ConfigurationColumns).GetOr(""),
      FirstTruthy(row, LocationColumns).GetOr(""),
      FirstTruthy(row, RemarkColumns).GetOr(""),
      FirstTruthy(row, AssignColumns))
  }

  /** `jsonData.map(...)`: one record per row, in row order. */
  function MapRows(rows: seq<Row>): (r: seq<UploadRecord>)
    ensures |r| == |rows|
    ensures forall i :: 0 <= i < |rows| ==> r[i] == MapRow(rows[i])
  {
    seq(|rows|, i requires 0 <= i < |rows| => MapRow(rows[i]))
  }

  /** The test `r => r.customerName && r.customerNumber`: a string is
      truthy exactly when it has at least one character. */
  predicate IsValid(record: UploadRecord)
    ensures IsValid(record) <==> |record.customerName| > 0 && |record.customerNumber| > 0
  {
    record.customerName != "" && record.customerNumber != ""
  }

  /** `parsedRecords.filter(...)`: the valid records in their order. */
  function ValidRecords(records: seq<UploadRecord>): (r: seq<UploadRecord>)
    ensures Seqs.IsSubsequence(r, records)
    ensures forall x :: multiset(r)[x] == if IsValid(x) then multiset(records)[x] else 0
  {
    Seqs.FilterKeeps(records, IsValid);
    Seqs.Filter(records, IsValid)
  }

  /** The other fields of a record never decide whether it is kept. */
  lemma OnlyNameAndNumberDecide(record: UploadRecord, other: UploadRecord)
    requires other.customerName == record.customerName && other.customerNumber == record.customerNumber
    ensures IsValid(other) == IsValid(record)
  {
  }

  /** The records a spreadsheet yields: each valid one comes from a row,
      and every row whose record is valid contributes it. */
  function ParseSheet(rows: seq<Row>): (r: seq<UploadRecord>)
    ensures Seqs.IsSubsequence(r, MapRows(rows))
    ensures forall x :: x in r <==> IsValid(x) && x in MapRows(rows)
    ensures forall x :: multiset(r)[x] == if IsValid(x) then multiset(MapRows(rows))[x] else 0
  {
    var mapped := MapRows(rows);
    Seqs.FilterMembers(mapped, IsValid);
    ValidRecords(mapped)
  }

  /** A row is kept exactly when some name column and some number column
      hold a non-empty cell. */
  lemma RowKeptIff(row: Row)
    ensures IsValid(MapRow(row)) <==>
              && (exists i :: 0 <= i < |NameColumns| && Truthy(row, NameColumns[i]))
              && (exists i :: 0 <= i < |NumberColumns| && Truthy(row, NumberColumns[i]))
  {
    var r := MapRow(row);
    if r.customerName != "" {
      var i :| FirstTruthyAt(row, NameColumns, i) && r.customerName == row[NameColumns[i]];
    }
    if r.customerNumber != "" {
      var i :| FirstTruthyAt(row, NumberColumns, i) && r.customerNumber == row[NumberColumns[i]];
    }
  }

  /** The 'Customer Name' column wins over 'Name' when both are filled. */
  lemma PreferredColumnWins(row: Row)
    requires Truthy(row, "Customer Name")
    ensures MapRow(row).customerName == row["Customer Name"]
  {
  }

  // ---------------------------------------------------------------------
  // Upload

  /** The body of the bulk-upload request. */
  datatype UploadRequest = UploadRequest(leadType: LeadType, date: string, records: seq<UploadRecord>)

  /** What pressing Upload leads to: the "No Records" alert, or the
      confirmation dialog whose Upload button sends `request`. */
  datatype UploadStep = NoRecords | ConfirmUpload(request: UploadRequest)

  /** `handleUpload()`, with `isoNow` standing for
      `new Date().toISOString()`; the date sent is the part before 'T'. */
  function HandleUpload(records: seq<UploadRecord>, leadType: LeadType, isoNow: string): (r: UploadStep)
    ensures r.NoRecords? <==> |records| == 0
    ensures r.ConfirmUpload? ==> r.request.records == records && r.request.leadType == leadType
    ensures r.ConfirmUpload? ==> 'T' !in r.request.date && r.request.date <= isoNow
    ensures r.ConfirmUpload? && r.request.date != isoNow ==> r.request.date + "T" <= isoNow
  {
    if |records| == 0 then NoRecords
    else
      var parts := Split(isoNow, 'T');
      assert isoNow == Join(parts, 'T');
      assert |parts| > 1 ==> isoNow == parts[0] + "T" + Join(parts[1..], 'T');
      ConfirmUpload(UploadRequest(leadType, parts[0], records))
  }

  /** A sheet none of whose rows has both a name and a number is refused
      with the "No Records" alert, and nothing is sent. */
  lemma SheetWithoutValidRowsIsRefused(rows: seq<Row>, leadType: LeadType, isoNow: string)
    requires forall i :: 0 <= i < |rows| ==> !IsValid(MapRow(rows[i]))
    ensures HandleUpload(ParseSheet(rows), leadType, isoNow) == NoRecords
  {
  }

  /** For an ISO timestamp the date sent is the calendar date before 'T'. */
  lemma UploadDateOfIsoTimestamp(records: seq<UploadRecord>, leadType: LeadType, date: string, time: string)
    requires |records| > 0 && 'T' !in date
    ensures HandleUpload(records, leadType, date + "T" + time) == ConfirmUpload(UploadRequest(leadType, date, records))
  {
    SplitAfterWord(date, 'T', time);
  }
}

=== FILE: dates.dfy ===
/** The date predicates of `src/utils/helpers.ts` (`isToday`, `isPast`)
    over abstract moments. The current time is a parameter instead of a
    read of the device clock. */
module Dates {
  import opened Wrappers

  /** A point in time as the device's local calendar shows it: the
      components `getFullYear()`, `getMonth()` and `getDate()` report, and
      the milliseconds elapsed since local midnight. */
  datatype Moment = Moment(year: int, month: int, day: int, time: int)

  /** `a < b` on two `Date` values: `a` is strictly earlier than `b`. */
  predicate Before(a: Moment, b: Moment) {
    if a.year != b.year then a.year < b.year
    else if a.month != b.month then a.month < b.month
    else if a.day != b.day then a.day < b.day
    else a.time < b.time
  }

  /** The calendar day of `a` is strictly earlier than that of `b`. */
  predicate EarlierDay(a: Moment, b: Moment) {
    Before(a.(time := 0), b.(time := 0))
  }

  /** `isToday(date)` with `now` for `new Date()`. `None` is a date string
      that does not parse: its components are `NaN`, which equals nothing. */
  predicate IsToday(date: Option<Moment>, now: Moment)
    ensures IsToday(date, now) <==> date.Some? && date.value.(time := now.time) == now
  {
    && date.Some?
    && date.value.day == now.day
    && date.value.month == now.month
    && date.value.year == now.year
  }

  /** `isPast(date)` with `now` for `new Date()`. An unparseable date is
      `NaN`, and `NaN < now` is false. */
  predicate IsPast(date: Option<Moment>, now: Moment)
    ensures date == Some(now) ==> !IsPast(date, now)
    ensures IsPast(date, now) ==> date.Some? && !Before(now, date.value)
  {
    date.Some? && Before(date.value, now)
  }

  /** Whether a date is today depends on neither time of day. */
  lemma IsTodayIgnoresTimeOfDay(d: Moment, now: Moment, t: int, t': int)
    ensures IsToday(Some(d.(time := t)), now.(time := t')) == IsToday(Some(d), now)
  {
  }

  /** A moment is past exactly when it lies on an earlier day, or earlier
      on the same day. */
  lemma IsPastByDay(d: Moment, now: Moment)
    ensures IsPast(Some(d), now) <==> EarlierDay(d, now) || (IsToday(Some(d), now) && d.time < now.time)
  {
  }

  /** Of two distinct moments exactly one is past relative to the other. */
  lemma IsPastTrichotomy(d: Moment, now: Moment)
    ensures d != now ==> (IsPast(Some(d), now) <==> !IsPast(Some(now), d))
  {
  }

  lemma IsPastTransitive(a: Moment, b: Moment, c: Moment)
    requires IsPast(Some(a), b) && IsPast(Some(b), c)
    ensures IsPast(Some(a), c)
  {
  }
}

=== FILE: detail_screens.dfy ===
/** The rules shared by `src/screens/MeetingDetailScreen.tsx` and
    `src/screens/VisitDetailScreen.tsx`: how an appointment's status is
    shown, which actions are offered, and which service calls "Mark as
    Done" and "Reschedule Only" issue. The two screens differ only in the
    word that prefixes the lead remark and in which suggestions they show,
    so one model serves both, parameterised by `Kind`. Service calls are
    returned as a list of effects in the order they are awaited. */
module DetailScreens {
  import opened Wrappers
  import opened Text
  import Dates
  import Seqs

  datatype Kind = MeetingKind | VisitKind

  /** The word the lead remark starts with. */
  function Prefix(kind: Kind): (r: string)
    ensures |r| > 0 && r[|r| - 1] == ' '
  {
    match kind
    case MeetingKind => "Meeting "
    case VisitKind => "Visit "
  }

  /** `MeetingStatus` of `src/types/index.ts`, also used by visits. */
  datatype AppointmentStatus = Scheduled | Completed | Cancelled

  /** The fields of a meeting or visit the screen reads. `leadId` and
      `scheduledAt` are `None` when the property is absent; the visit screen
      reads `leadId` and `scheduledAt` while the declared `Visit` type names
      them `lead_id` and `scheduled_at`. A `scheduledAt` of `None` is also a
      date string that does not parse. */
  datatype Appointment = Appointment(
    kind: Kind,
    id: string,
    leadId: Option<string>,
    scheduledAt: Option<Dates.Moment>,
    status: AppointmentStatus)

  /** `meeting?.lead_id` (or `visit?.leadId`) is truthy. */
  predicate HasLead(a: Appointment) {
    a.leadId.Some? && a.leadId.value != ""
  }

  // ---------------------------------------------------------------------
  // Status display

  /** `isCompleted`. */
  predicate IsCompleted(a: Appointment) {
    a.status == Completed
  }

  /** The three ways the screen can show an appointment. */
  datatype Label = CompletedLabel | MissedLabel | ScheduledLabel

  /** The precedence every status display follows: completed, else missed
      when the scheduled time has passed, else scheduled. */
  function StatusLabel(a: Appointment, now: Dates.Moment): (r: Label)
    ensures r == CompletedLabel <==> a.status == Completed
    ensures r == MissedLabel <==> a.status != Completed && a.scheduledAt.Some? && Dates.Before(a.scheduledAt.value, now)
    ensures r == ScheduledLabel <==> a.status != Completed && !(a.scheduledAt.Some? && Dates.Before(a.scheduledAt.value, now))
  {
    if a.status == Completed then CompletedLabel
    else if Dates.IsPast(a.scheduledAt, now) then MissedLabel
    else ScheduledLabel
  }

  /** A colour of the status bar: the theme's success colour or a literal. */
  datatype Color = ThemeSuccess | Hex(code: string)

  /** `getStatusColor(status, isPast)`. */
  function StatusColor(status: AppointmentStatus, isPast: bool): (r: Color)
    ensures r == ThemeSuccess <==> status == Completed
    ensures r == Hex("#F44336") <==> status != Completed && isPast
    ensures r == Hex("#2196F3") <==> status != Completed && !isPast
  {
    if status == Completed then ThemeSuccess
    else if isPast then Hex("#F44336")
    else Hex("#2196F3")
  }

  /** Everything the screen shows about the status: the badge's text and
      variant, and the status bar's text and colour. */
  datatype StatusDisplay = StatusDisplay(badgeText: string, badgeVariant: string, statusText: string, color: Color)

  /** The status display, each part computed by its own conditional as
      the screen does. All four parts show the state `StatusLabel` picks. */
  function Display(a: Appointment, now: Dates.Moment): (r: StatusDisplay)
    ensures StatusLabel(a, now) == CompletedLabel
        <==> r == StatusDisplay("COMPLETED", "success", "Completed", ThemeSuccess)
    ensures StatusLabel(a, now) == MissedLabel
        <==> r == StatusDisplay("MISSED", "backlog", "Missed", Hex("#F44336"))
    ensures StatusLabel(a, now) == ScheduledLabel
        <==> r == StatusDisplay("SCHEDULED", "meeting", "Scheduled", Hex("#2196F3"))
  {
    var isCompleted, isPast := IsCompleted(a), Dates.IsPast(a.scheduledAt, now);
    StatusDisplay(
      if isCompleted then "COMPLETED" else if isPast then "MISSED" else "SCHEDULED",
      if isCompleted then "success" else if isPast then "backlog" else "meeting",
      if isCompleted then "Completed" else if isPast then "Missed" else "Scheduled",
      StatusColor(a.status, isPast))
  }

  /** A completed appointment shows as completed at any time. */
  lemma CompletedAtAnyTime(a: Appointment, now: Dates.Moment, later: Dates.Moment)
    requires a.status == Completed
    ensures StatusLabel(a, now) == StatusLabel(a, later) == CompletedLabel
  {
  }

  /** At the scheduled moment itself an open appointment is not yet
      missed; neither is one whose date is absent or does not parse. */
  lemma NotMissedAtScheduledTime(a: Appointment, now: Dates.Moment)
    requires a.scheduledAt == Some(now) || a.scheduledAt.None?
    ensures StatusLabel(a, now) != MissedLabel
  {
  }

  /** Once missed, an open appointment stays missed as time goes on. */
  lemma MissedStaysMissed(a: Appointment, now: Dates.Moment, later: Dates.Moment)
    requires StatusLabel(a, now) == MissedLabel && Dates.Before(now, later)
    ensures StatusLabel(a, later) == MissedLabel
  {
    Dates.IsPastTransitive(a.scheduledAt.value, now, later);
  }

  /** A cancelled appointment has no display of its own: it shows as
      missed or as scheduled, by its time alone. */
  lemma CancelledShownByTime(a: Appointment, now: Dates.Moment)
    requires a.status == Cancelled
    ensures StatusLabel(a, now) != CompletedLabel
  {
  }

  // ---------------------------------------------------------------------
  // Actions

  /** The "Mark as Done" and "Reschedule" buttons are rendered. */
  predicate ActionsOffered(a: Appointment)
    ensures ActionsOffered(a) <==> a.status != Completed
  {
    !IsCompleted(a)
  }

  /** Actions are offered exactly when the appointment is not shown as
      completed, at whatever time the screen is looked at. */
  lemma ActionsOfferedIffNotShownCompleted(a: Appointment, now: Dates.Moment)
    ensures ActionsOffered(a) <==> Display(a, now).badgeText != "COMPLETED"
  {
  }

  /** The service calls the screen issues, in the order they are awaited. */
  datatype Effect =
    | CompleteAppointment(kind: Kind, id: string)
    | UpdateLeadRemark(leadId: string, remark: string)

  /** The remark written for reschedule text `text`. */
  function RemarkFor(kind: Kind, text: string): (r: string)
    ensures Prefix(kind) <= r && r[|Prefix(kind)|..] == text
  {
    Prefix(kind) + text
  }

  /** `rescheduleText || undefined`: empty text is passed as no remark. */
  function RemarkArgument(text: string): (r: Option<string>)
    ensures r.None? <==> text == ""
    ensures r.Some? ==> r.value == text
  {
    if text == "" then None else Some(text)
  }

  /** The completion mutation: complete the appointment, then, if a
      truthy remark and a lead id are present, write the lead remark. */
  function CompleteMutation(a: Appointment, remark: Option<string>): (r: seq<Effect>)
    ensures |r| >= 1 && r[0] == CompleteAppointment(a.kind, a.id)
    ensures |r| == 2 <==> remark.Some? && remark.value != "" && HasLead(a)
    ensures |r| == 2 ==> r[1] == UpdateLeadRemark(a.leadId.value, RemarkFor(a.kind, remark.value))
    ensures |r| <= 2
  {
    var done := [CompleteAppointment(a.kind, a.id)];
    if remark.Some? && remark.value != "" && HasLead(a) then
      done + [UpdateLeadRemark(a.leadId.value, RemarkFor(a.kind, remark.value))]
    else done
  }

  /** `handleConfirmDone()` with the text typed in the dialog. */
  function ConfirmDone(a: Appointment, text: string): (r: seq<Effect>)
    ensures |r| >= 1 && r[0] == CompleteAppointment(a.kind, a.id)
    ensures |r| == 2 <==> text != "" && HasLead(a)
    ensures |r| == 2 ==> r[1] == UpdateLeadRemark(a.leadId.value, RemarkFor(a.kind, text))
    ensures |r| <= 2
  {
    CompleteMutation(a, RemarkArgument(text))
  }

  /** What a press of "Reschedule Only" ends in: an alert, a mutation that
      throws, or the service calls it issues. */
  datatype Outcome =
    | Alerted(title: string, message: string)
    | Failed(error: string)
    | Issued(effects: seq<Effect>)

  /** The reschedule mutation: it throws without a lead id, and otherwise
      writes the lead remark. */
  function RescheduleMutation(a: Appointment, text: string): (r: Outcome)
    ensures r.Failed? <==> !HasLead(a)
    ensures r.Failed? ==> r.error == "No lead ID"
    ensures r.Issued? ==> r.effects == [UpdateLeadRemark(a.leadId.value, RemarkFor(a.kind, text))]
    ensures !r.Alerted?
  {
    if !HasLead(a) then Failed("No lead ID")
    else Issued([UpdateLeadRemark(a.leadId.value, RemarkFor(a.kind, text))])
  }

  /** `handleConfirmReschedule()`: empty text is refused with an alert
      before the mutation runs. */
  function ConfirmReschedule(a: Appointment, text: string): (r: Outcome)
    ensures r.Alerted? <==> text == ""
    ensures r.Alerted? ==> r == Alerted("Error", "Please enter reschedule time")
    ensures r.Failed? <==> text != "" && !HasLead(a)
    ensures r.Issued? <==> text != "" && HasLead(a)
    ensures r.Issued? ==> r.effects == [UpdateLeadRemark(a.leadId.value, RemarkFor(a.kind, text))]
  {
    if text == "" then Alerted("Error", "Please enter reschedule time")
    else RescheduleMutation(a, text)
  }

  /** The remark a reschedule writes is exactly the one "Mark as Done"
      would write with the same text; only the completion is extra. */
  lemma RescheduleWritesDoneRemark(a: Appointment, text: string)
    ensures ConfirmReschedule(a, text).Issued? <==> |ConfirmDone(a, text)| == 2
    ensures ConfirmReschedule(a, text).Issued? ==> ConfirmReschedule(a, text).effects == ConfirmDone(a, text)[1..]
  {
  }

  /** Neither action writes a remark when the text is empty, and neither
      writes one without a lead id. */
  lemma NoRemarkWithoutTextOrLead(a: Appointment, text: string)
    requires text == "" || !HasLead(a)
    ensures ConfirmDone(a, text) == [CompleteAppointment(a.kind, a.id)]
    ensures !ConfirmReschedule(a, text).Issued?
  {
  }

  /** Every remark either action writes starts with the screen's word and
      carries the typed text after it unchanged. */
  lemma RemarksCarryText(a: Appointment, text: string, e: Effect)
    requires e in ConfirmDone(a, text) || (ConfirmReschedule(a, text).Issued? && e in ConfirmReschedule(a, text).effects)
    requires e.UpdateLeadRemark?
    ensures e.leadId == a.leadId.value && e.remark == Prefix(a.kind) + text && text != ""
  {
  }

  /** The buttons of the dialog. */
  datatype DialogButton = MarkAsDone | RescheduleOnly

  /** "Mark as Done" always; "Reschedule Only" only once text is typed. */
  function DialogButtons(text: string): (r: seq<DialogButton>)
    ensures |r| >= 1 && r[0] == MarkAsDone
    ensures RescheduleOnly in r <==> text != ""
  {
    if text != "" then [MarkAsDone, RescheduleOnly] else [MarkAsDone]
  }

  /** The dialog hides "Reschedule Only" exactly when pressing it would
      raise the empty-text alert, so that alert cannot be reached from it. */
  lemma RescheduleOnlyNeverAlerts(a: Appointment, text: string)
    ensures RescheduleOnly in DialogButtons(text) <==> !ConfirmReschedule(a, text).Alerted?
  {
  }

  // ---------------------------------------------------------------------
  // Suggestion chips

  /** `suggestion.replace('Meeting ', '').replace('Visit ', '')`. */
  function ChipText(suggestion: string): (r: string)
    ensures |r| <= |suggestion|
  {
    var once := ReplaceFirst(suggestion, "Meeting ", "");
    ReplaceFirst(once, "Visit ", "")
  }

  /** No occurrence of "Meeting " can start inside the word "Visit ". */
  lemma NoMeetingAcrossVisit(t: string)
    requires !Contains(t, "Meeting ")
    ensures !Contains("Visit " + t, "Meeting ")
  {
    var s := "Visit " + t;
    forall i ensures !OccursAt(s, "Meeting ", i) {
      if 0 <= i < 6 && i + 8 <= |s| {
        var w := s[i..i + 8];
        assert w[0] == s[i];
        assert s[i] == "Visit "[i];
        assert "Visit "[i] in "Visit " && 'M' !in "Visit ";
        assert w[0] != "Meeting "[0];
      } else if i >= 6 && i + 8 <= |s| {
        assert s[i..i + 8] == t[i - 6..i - 6 + 8];
        assert !OccursAt(t, "Meeting ", i - 6);
      }
    }
  }

  /** A suggestion written with the screen's word, and not mentioning the
      other one, is shown as its text without the word. */
  lemma ChipTextDropsPrefix(kind: Kind, t: string)
    requires !Contains(t, "Meeting ") && !Contains(t, "Visit ")
    ensures ChipText(Prefix(kind) + t) == t
  {
    match kind
    case MeetingKind =>
      ReplaceFirstAtStart("Meeting ", t, "");
      assert "" + t == t;
      ReplaceFirstAbsent(t, "Visit ", "");
    case VisitKind =>
      NoMeetingAcrossVisit(t);
      ReplaceFirstAbsent("Visit " + t, "Meeting ", "");
      ReplaceFirstAtStart("Visit ", t, "");
      assert "" + t == t;
  }

  /** Text with neither word is shown as it is. */
  lemma ChipTextPlain(t: string)
    requires !Contains(t, "Meeting ") && !Contains(t, "Visit ")
    ensures ChipText(t) == t
  {
    ReplaceFirstAbsent(t, "Meeting ", "");
    ReplaceFirstAbsent(t, "Visit ", "");
  }

  /** Tapping a chip for a suggestion "Meeting t" (or "Visit t") and then
      "Reschedule Only" writes the suggestion itself as the lead remark. */
  lemma ChipThenRescheduleWritesSuggestion(a: Appointment, t: string)
    requires t != "" && HasLead(a)
    requires !Contains(t, "Meeting ") && !Contains(t, "Visit ")
    ensures ConfirmReschedule(a, ChipText(Prefix(a.kind) + t))
         == Issued([UpdateLeadRemark(a.leadId.value, Prefix(a.kind) + t)])
  {
    ChipTextDropsPrefix(a.kind, t);
  }

  /** The chips of the dialog, from the list of remark suggestions: the
      first two for a meeting, the third and fourth for a visit. */
  function Chips(kind: Kind, suggestions: seq<string>): (r: seq<string>)
    ensures |r| <= 2
    ensures kind == MeetingKind ==> |r| == (if |suggestions| < 2 then |suggestions| else 2)
    ensures kind == VisitKind ==> |r| == (if |suggestions| < 2 then 0 else if |suggestions| < 4 then |suggestions| - 2 else 2)
    ensures forall k :: 0 <= k < |r| ==>
              r[k] == ChipText(suggestions[k + (if kind == MeetingKind then 0 else 2)])
  {
    var offset := if kind == MeetingKind then 0 else 2;
    var picked := Seqs.Slice(suggestions, offset, offset + 2);
    var r := seq(|picked|, k requires 0 <= k < |picked| => ChipText(picked[k]));
    assert forall k :: 0 <= k < |r| ==> r[k] == ChipText(suggestions[k + offset]);
    r
  }

  /** A visit shows the chips a meeting would show for the suggestion
      list without its first two entries; with two entries or fewer a
      visit shows no chip at all. */
  lemma VisitChipsSkipTwo(suggestions: seq<string>)
    ensures |suggestions| >= 2 ==> Chips(VisitKind, suggestions) == Chips(MeetingKind, suggestions[2..])
    ensures |suggestions| <= 2 ==> Chips(VisitKind, suggestions) == []
  {
    if |suggestions| >= 2 {
      var v, m := Chips(VisitKind, suggestions), Chips(MeetingKind, suggestions[2..]);
      assert |v| == |m|;
      forall k | 0 <= k < |v| ensures v[k] == m[k] {
        assert suggestions[2..][k] == suggestions[k + 2];
      }
    }
  }
}

=== FILE: helpers.dfy ===
/** The string helpers of `src/utils/helpers.ts`: the greeting for an hour,
    the role label, a name's initials and the Indian phone format. */
module Helpers {
  import opened Text
  import Seqs

  // ---------------------------------------------------------------------
  // Greeting

  /** `getGreeting()` with the clock's `getHours()` passed in as `hour`. */
  function Greeting(hour: int): (r: string)
    ensures r == "Good Morning" <==> 6 <= hour < 12
    ensures r == "Good Afternoon" <==> 12 <= hour < 17
    ensures r == "Good Evening" <==> 17 <= hour < 21
    ensures r == "Good Night" <==> hour < 6 || 21 <= hour
  {
    if hour >= 6 && hour < 12 then "Good Morning"
    else if hour >= 12 && hour < 17 then "Good Afternoon"
    else if hour >= 17 && hour < 21 then "Good Evening"
    else "Good Night"
  }

  /** The greeting for each hour of the day, written out hour by hour. */
  const GreetingByHour: seq<string> := [
    "Good Night", "Good Night", "Good Night", "Good Night", "Good Night", "Good Night",
    "Good Morning", "Good Morning", "Good Morning", "Good Morning", "Good Morning", "Good Morning",
    "Good Afternoon", "Good Afternoon", "Good Afternoon", "Good Afternoon", "Good Afternoon",
    "Good Evening", "Good Evening", "Good Evening", "Good Evening",
    "Good Night", "Good Night", "Good Night"
  ]

  /** Each hour `getHours()` can report gets the greeting of the table. */
  lemma GreetingMatchesTable(hour: int)
    requires 0 <= hour < 24
    ensures |GreetingByHour| == 24
    ensures Greeting(hour) == GreetingByHour[hour]
  {
  }

  // ---------------------------------------------------------------------
  // Role label

  /** The own entries of the `labels` object literal of `getRoleLabel`. */
  const RoleLabels: map<string, string> :=
    map["admin" := "Admin", "manager" := "Manager", "employee" := "Employee", "owner" := "Owner"]

  /** `getRoleLabel(role)` as evidently intended: a known role maps to its
      label, every other string, whatever its case, is returned unchanged. */
  function RoleLabel(role: string): (r: string)
    ensures role in RoleLabels ==> r == RoleLabels[role]
    ensures role !in RoleLabels ==> r == role
  {
    if role in RoleLabels then RoleLabels[role] else role
  }

  /** The label differs from the role exactly for the four known roles. */
  lemma RoleLabelChangesOnlyKnownRoles(role: string)
    ensures RoleLabel(role) != role <==> role in {"admin", "manager", "employee", "owner"}
  {
  }

  /** Labelling a label changes nothing: no label is itself a known role. */
  lemma RoleLabelIdempotent(role: string)
    ensures RoleLabel(RoleLabel(role)) == RoleLabel(role)
  {
  }

  /** Lookup is case-sensitive: an upper-case role is passed through. */
  lemma RoleLabelCaseSensitive()
    ensures RoleLabel("ADMIN") == "ADMIN" && RoleLabel("admin") == "Admin"
  {
  }

  /** What `labels[role]` can yield on a JavaScript object literal: an own
      string entry, or a member inherited from `Object.prototype`. */
  datatype LookupValue = Own(text: string) | Inherited(member: string)

  /** The properties every object literal inherits from `Object.prototype`;
      all of them are truthy. */
  const ObjectPrototypeMembers: set<string> := {
    "constructor", "hasOwnProperty", "isPrototypeOf", "propertyIsEnumerable",
    "toLocaleString", "toString", "valueOf", "__proto__",
    "__defineGetter__", "__defineSetter__", "__lookupGetter__", "__lookupSetter__"
  }

  /** `labels[role] || role` as written: the lookup walks the prototype
      chain, so an inherited member is truthy and is what comes back. */
  function RoleLabelAsWritten(role: string): (r: LookupValue)
    ensures r.Inherited? <==> role !in RoleLabels && role in ObjectPrototypeMembers
  {
    if role in RoleLabels then Own(RoleLabels[role])
    else if role in ObjectPrototypeMembers then Inherited(role)
    else Own(role)
  }

  /** The code as written agrees with the intended label except on the
      names of `Object.prototype` members, where it returns no string. */
  lemma RoleLabelAsWrittenAgreement(role: string)
    ensures role !in ObjectPrototypeMembers ==> RoleLabelAsWritten(role) == Own(RoleLabel(role))
    ensures role in ObjectPrototypeMembers ==> RoleLabelAsWritten(role) != Own(RoleLabel(role))
  {
  }

  /** The input that shows the discrepancy: the role "toString". */
  lemma RoleLabelAsWrittenToString()
    ensures RoleLabelAsWritten("toString") == Inherited("toString")
    ensures RoleLabel("toString") == "toString"
  {
  }

  // ---------------------------------------------------------------------
  // Initials

  /** `parts.map(n => n[0]).join('')`: the first character of each part;
      an empty part yields `undefined`, which `join` writes as nothing. */
  function Heads(parts: seq<string>): string
    decreases |parts|
  {
    if |parts| == 0 then ""
    else (if |parts[0]| > 0 then [parts[0][0]] else "") + Heads(parts[1..])
  }

  /** The characters of `s` that begin a word, scanning left to right: a
      character that is not a space and is either the first one read while
      `atStart` holds or the one just after a space. */
  function WordStarts(s: string, atStart: bool): string
    decreases |s|
  {
    if |s| == 0 then ""
    else (if atStart && s[0] != ' ' then [s[0]] else "") + WordStarts(s[1..], s[0] == ' ')
  }

  /** Splitting on spaces and taking heads finds the same characters as the
      left-to-right scan; without `atStart` the first word is skipped. */
  lemma {:induction false} HeadsOfSplit(s: string, atStart: bool)
    ensures WordStarts(s, atStart)
         == if atStart then Heads(Split(s, ' ')) else Heads(Split(s, ' ')[1..])
    decreases |s|
  {
    if |s| > 0 {
      HeadsOfSplit(s[1..], true);
      HeadsOfSplit(s[1..], false);
      var rest := Split(s[1..], ' ');
      if s[0] == ' ' {
        assert Split(s, ' ') == [""] + rest;
        assert ([""] + rest)[1..] == rest;
      } else {
        assert Split(s, ' ') == [[s[0]] + rest[0]] + rest[1..];
        assert ([[s[0]] + rest[0]] + rest[1..])[1..] == rest[1..];
      }
    }
  }

  function Min(a: int, b: int): int {
    if a <= b then a else b
  }

  /** `getInitials(name)`: the upper-cased first character of each word,
      words being separated by single spaces, cut to two characters. */
  function Initials(name: string): (r: string)
    ensures |r| == Min(2, |WordStarts(name, true)|)
    ensures forall k :: 0 <= k < |r| ==> r[k] == UpperChar(WordStarts(name, true)[k])
    ensures name == "" ==> r == ""
  {
    HeadsOfSplit(name, true);
    var heads := Upper(Heads(Split(name, ' ')));
    heads[..Min(2, |heads|)]
  }

  /** The characters of a word free of spaces, followed by anything: only
      the word's first character can begin a word. */
  lemma {:induction false} WordStartsAfterWord(w: string, t: string, atStart: bool)
    requires |w| > 0 && ' ' !in w
    ensures WordStarts(w + t, atStart) == (if atStart then [w[0]] else "") + WordStarts(t, false)
    decreases |w|
  {
    var s := w + t;
    assert s[0] == w[0] && w[0] != ' ';
    assert s[1..] == w[1..] + t;
    assert WordStarts(s, atStart) == (if atStart then [w[0]] else "") + WordStarts(w[1..] + t, false);
    if |w| > 1 {
      assert ' ' !in w[1..];
      WordStartsAfterWord(w[1..], t, false);
    } else {
      assert w[1..] + t == t;
    }
  }

  /** Leading spaces contribute nothing. */
  lemma InitialsIgnoreLeadingSpace(name: string)
    ensures Initials(" " + name) == Initials(name)
  {
    assert (" " + name)[1..] == name;
  }

  /** Two words give the upper-cased first letter of each. */
  lemma InitialsOfTwoWords(first: string, last: string)
    requires |first| > 0 && ' ' !in first
    requires |last| > 0 && ' ' !in last
    ensures Initials(first + " " + last) == [UpperChar(first[0]), UpperChar(last[0])]
  {
    var name := first + " " + last;
    assert name == first + (" " + last);
    WordStartsAfterWord(first, " " + last, true);
    assert (" " + last)[1..] == last;
    WordStartsAfterWord(last, "", true);
    assert last + "" == last;
  }

  // ---------------------------------------------------------------------
  // Phone numbers

  /** `phone.replace(/\D/g, '')`: the decimal digits, in order. */
  function Digits(s: string): (r: string)
    ensures AllDigits(r)
  {
    Seqs.Filter(s, IsDigit)
  }

  /** Stripping keeps every digit of the input, in order and as often as
      it occurs, and drops every other character. */
  lemma DigitsKeepsEveryDigit(s: string)
    ensures Seqs.IsSubsequence(Digits(s), s)
    ensures forall c :: multiset(Digits(s))[c] == if IsDigit(c) then multiset(s)[c] else 0
  {
    Seqs.FilterKeeps(s, IsDigit);
  }

  /** `formatPhoneNumber(phone)`: exactly ten digits are shown as
      "+91 XXXXX XXXXX"; otherwise the input comes back untouched, not
      the stripped digits. */
  function FormatPhone(phone: string): (r: string)
    ensures |Digits(phone)| == 10 ==> |r| == 15 && r == "+91 " + Digits(phone)[..5] + " " + Digits(phone)[5..]
    ensures |Digits(phone)| != 10 ==> r == phone
  {
    var cleaned := Digits(phone);
    if |cleaned| == 10 then "+91 " + cleaned[..5] + " " + cleaned[5..] else phone
  }

  lemma DigitsOfDigits(s: string)
    requires AllDigits(s)
    ensures Digits(s) == s
  {
    Seqs.FilterKeepsAll(s, IsDigit);
  }

  lemma DigitsOfChar(c: char)
    ensures Digits([c]) == if IsDigit(c) then [c] else ""
  {
    assert [c][1..] == "";
  }

  /** The literal "+91 " in front of a formatted number adds the digits
      of the country code and nothing else. */
  lemma DigitsOfCountryPrefix()
    ensures Digits("+91 ") == "91"
  {
    var s := "+91 ";
    assert s[1..] == "91 " && s[1..][1..] == "1 " && s[1..][1..][1..] == " ";
    DigitsOfChar(' ');
    assert Digits("1 ") == "1";
    assert Digits("91 ") == "91";
  }

  /** Digits written behind a literal add to the literal's digits. */
  lemma DigitsBehind(literal: string, literalDigits: string, d: string)
    requires Digits(literal) == literalDigits && AllDigits(d)
    ensures Digits(literal + d) == literalDigits + d
  {
    DigitsOfDigits(d);
    Seqs.FilterAppend(literal, d, IsDigit);
  }

  /** A formatted number keeps its ten digits behind the country code 91. */
  lemma {:induction false} FormattedDigits(phone: string)
    requires |Digits(phone)| == 10
    ensures Digits(FormatPhone(phone)) == "91" + Digits(phone)
  {
    var d := Digits(phone);
    var a, b := d[..5], d[5..];
    var f := FormatPhone(phone);
    assert f == ("+91 " + a) + (" " + b);
    assert AllDigits(a) && AllDigits(b);
    DigitsOfCountryPrefix();
    DigitsBehind("+91 ", "91", a);
    DigitsOfChar(' ');
    DigitsBehind(" ", "", b);
    assert Digits(f) == Digits("+91 " + a) + Digits(" " + b) by {
      Seqs.FilterAppend("+91 " + a, " " + b, IsDigit);
    }
    assert ("91" + a) + b == "91" + d by {
      assert a + b == d;
    }
  }

  /** Formatting changes a number exactly when it has ten digits. */
  lemma FormatPhoneChangesIff(phone: string)
    ensures FormatPhone(phone) != phone <==> |Digits(phone)| == 10
  {
    if |Digits(phone)| == 10 {
      FormattedDigits(phone);
    }
  }

  /** Formatting twice is formatting once: a formatted number carries
      twelve digits, so the second pass leaves it alone. */
  lemma FormatPhoneIdempotent(phone: string)
    ensures FormatPhone(FormatPhone(phone)) == FormatPhone(phone)
  {
    if |Digits(phone)| == 10 {
      FormattedDigits(phone);
    }
  }
}

=== FILE: leads.dfy ===
/** The lead list of `src/screens/LeadsScreen.tsx`: a search box, four
    status tabs, and the list sorted newest first. */
module Leads {
  import opened Wrappers
  import opened Text
  import Seqs

  /** `LeadStatus` of `src/types/index.ts`. */
  datatype LeadStatus = New | Contacted | Interested | Prospect | Converted | Spam

  /** The status tabs: 'all', 'new', 'inprogress' and 'closed'. */
  datatype StatusFilter = All | NewOnly | InProgress | Closed

  /** The fields of a lead the list reads. `createdAt` is the creation time
      in milliseconds that the sort compares; it is `None` when the record
      carries no `createdAt` property (the declared `Lead` type names that
      field `created_at`), and then `new Date(...).getTime()` is `NaN`. */
  datatype Lead = Lead(name: string, phone: string, status: LeadStatus, createdAt: Option<int>)

  // ---------------------------------------------------------------------
  // Filtering

  /** The search: the lower-cased name contains the lower-cased query, or
      the phone contains the query exactly as typed. */
  predicate MatchesSearch(lead: Lead, query: string)
    ensures MatchesSearch(lead, query)
        <==> (exists i :: OccursAt(Lower(lead.name), Lower(query), i)) || (exists i :: OccursAt(lead.phone, query, i))
    ensures query == "" ==> MatchesSearch(lead, query)
  {
    assert query == "" ==> Contains(lead.phone, query) by {
      if query == "" {
        ContainsEmpty(lead.phone);
      }
    }
    Contains(Lower(lead.name), Lower(query)) || Contains(lead.phone, query)
  }

  /** The statuses each tab lets through. */
  predicate InBucket(status: LeadStatus, filter: StatusFilter)
    ensures filter == All ==> InBucket(status, filter)
    ensures status == Prospect ==> (InBucket(status, filter) <==> filter == All)
    ensures status == New ==> (InBucket(status, filter) <==> filter in {All, NewOnly})
    ensures filter == NewOnly ==> (InBucket(status, filter) <==> status == New)
    ensures filter == InProgress ==> (InBucket(status, filter) <==> status in {Contacted, Interested})
    ensures filter == Closed ==> (InBucket(status, filter) <==> status in {Converted, Spam})
  {
    match filter
    case All => true
    case NewOnly => status == New
    case InProgress => status == Contacted || status == Interested
    case Closed => status == Converted || status == Spam
  }

  /** The `filter` callback of `filteredLeads`. */
  predicate Shown(lead: Lead, query: string, filter: StatusFilter) {
    MatchesSearch(lead, query) && InBucket(lead.status, filter)
  }

  /** `leads.filter(...)`: the shown leads, in their original order. */
  function FilterLeads(leads: seq<Lead>, query: string, filter: StatusFilter): (r: seq<Lead>)
    ensures forall l :: l in r <==> l in leads && Shown(l, query, filter)
    ensures forall l :: multiset(r)[l] == if Shown(l, query, filter) then multiset(leads)[l] else 0
    ensures Seqs.IsSubsequence(r, leads)
  {
    var keep := l => Shown(l, query, filter);
    Seqs.FilterMembers(leads, keep);
    Seqs.FilterKeeps(leads, keep);
    Seqs.Filter(leads, keep)
  }

  /** An empty search on the 'all' tab hides nothing. */
  lemma EmptySearchShowsAll(leads: seq<Lead>)
    ensures FilterLeads(leads, "", All) == leads
  {
    forall i | 0 <= i < |leads| ensures Shown(leads[i], "", All) {
      ContainsEmpty(Lower(leads[i].name));
    }
    Seqs.FilterKeepsAll(leads, l => Shown(l, "", All));
  }

  /** The three narrower tabs split the statuses other than 'prospect'
      between them, each status into exactly one tab; 'prospect' falls in
      none of them. */
  lemma BucketsPartition(status: LeadStatus)
    ensures (if InBucket(status, NewOnly) then 1 else 0)
          + (if InBucket(status, InProgress) then 1 else 0)
          + (if InBucket(status, Closed) then 1 else 0)
         == (if status == Prospect then 0 else 1)
  {
  }

  /** A prospect is listed only under the 'all' tab. */
  lemma ProspectOnlyUnderAll(leads: seq<Lead>, query: string, filter: StatusFilter, lead: Lead)
    requires lead.status == Prospect
    ensures lead in FilterLeads(leads, query, filter)
        <==> filter == All && lead in leads && MatchesSearch(lead, query)
  {
  }

  lemma LowerUpper(q: string)
    ensures Lower(Upper(q)) == Lower(q)
  {
  }

  /** Name matching ignores the case of the query. */
  lemma NameSearchIgnoresCase(lead: Lead, query: string)
    ensures Contains(Lower(lead.name), Lower(Upper(query))) == Contains(Lower(lead.name), Lower(query))
  {
    LowerUpper(query);
  }

  /** Phone matching does not: "x1" finds the phone "x1", "X1" does not. */
  lemma PhoneSearchKeepsCase()
    ensures MatchesSearch(Lead("", "x1", New, None), "x1")
    ensures !MatchesSearch(Lead("", "x1", New, None), "X1")
  {
    assert OccursAt("x1", "x1", 0);
    assert Lower("") == "";
  }

  // ---------------------------------------------------------------------
  // Sorting

  /** The comparator `new Date(b.createdAt).getTime() -
      new Date(a.createdAt).getTime()`: negative when `a` is to come first.
      A `NaN` difference is taken as 0, as `Array.prototype.sort` does. */
  function Compare(a: Lead, b: Lead): (r: int)
    ensures a.createdAt.None? || b.createdAt.None? ==> r == 0
    ensures r < 0 <==> a.createdAt.Some? && b.createdAt.Some? && a.createdAt.value > b.createdAt.value
    ensures r > 0 <==> a.createdAt.Some? && b.createdAt.Some? && a.createdAt.value < b.createdAt.value
  {
    if a.createdAt.Some? && b.createdAt.Some? then b.createdAt.value - a.createdAt.value else 0
  }

  predicate AllStamped(leads: seq<Lead>) {
    forall i :: 0 <= i < |leads| ==> leads[i].createdAt.Some?
  }

  predicate NoneStamped(leads: seq<Lead>) {
    forall i :: 0 <= i < |leads| ==> leads[i].createdAt.None?
  }

  /** Every lead is timestamped and no lead is older than one after it. */
  predicate NewestFirst(leads: seq<Lead>) {
    && AllStamped(leads)
    && forall i, j :: 0 <= i < j < |leads| ==> leads[i].createdAt.value >= leads[j].createdAt.value
  }

  /** One step of a stable insertion sort: `x`, which comes after every
      element of `sorted` in the input, is placed before the first element
      it must precede and after all others. */
  function Insert(x: Lead, sorted: seq<Lead>): (r: seq<Lead>)
    ensures multiset(r) == multiset(sorted) + multiset{x}
    decreases |sorted|
  {
    if |sorted| == 0 then [x]
    else if Compare(x, sorted[0]) < 0 then [x] + sorted
    else
      assert sorted == [sorted[0]] + sorted[1..];
      [sorted[0]] + Insert(x, sorted[1..])
  }

  lemma InsertMembers(x: Lead, sorted: seq<Lead>)
    ensures forall y :: y in Insert(x, sorted) ==> y == x || y in sorted
  {
    forall y | y in Insert(x, sorted)
      ensures y == x || y in sorted
    {
      assert y in multiset(Insert(x, sorted));
    }
  }

  /** A timestamped lead at least as new as every element of a
      newest-first list can head it. */
  lemma ConsNewestFirst(head: Lead, rest: seq<Lead>)
    requires head.createdAt.Some? && NewestFirst(rest)
    requires forall y :: y in rest ==> y.createdAt.value <= head.createdAt.value
    ensures NewestFirst([head] + rest)
  {
    var r := [head] + rest;
    forall i, j | 0 <= i < j < |r|
      ensures r[i].createdAt.value >= r[j].createdAt.value
    {
      if i > 0 {
        assert r[i] == rest[i - 1] && r[j] == rest[j - 1];
      } else {
        assert r[j] in rest;
      }
    }
  }

  lemma {:induction false} InsertKeepsNewestFirst(x: Lead, sorted: seq<Lead>)
    requires x.createdAt.Some? && NewestFirst(sorted)
    ensures NewestFirst(Insert(x, sorted))
    decreases |sorted|
  {
    if |sorted| > 0 && Compare(x, sorted[0]) >= 0 {
      var rest := Insert(x, sorted[1..]);
      InsertKeepsNewestFirst(x, sorted[1..]);
      InsertMembers(x, sorted[1..]);
      forall y | y in rest
        ensures y.createdAt.value <= sorted[0].createdAt.value
      {
        if y != x {
          var k :| 1 <= k < |sorted| && sorted[k] == y;
        }
      }
      ConsNewestFirst(sorted[0], rest);
    } else if |sorted| > 0 {
      forall y | y in sorted
        ensures y.createdAt.value <= x.createdAt.value
      {
        var k :| 0 <= k < |sorted| && sorted[k] == y;
      }
      ConsNewestFirst(x, sorted);
    }
  }

  /** One insertion step: without a timestamp `x` compares equal to every
      lead already placed, so it precedes none of them and is appended. */
  lemma {:induction false} InsertUnstamped(x: Lead, sorted: seq<Lead>)
    requires x.createdAt.None?
    ensures Insert(x, sorted) == sorted + [x]
    decreases |sorted|
  {
    if |sorted| > 0 {
      InsertUnstamped(x, sorted[1..]);
      assert sorted == [sorted[0]] + sorted[1..];
    }
  }

  /** `.sort(...)` with the comparator above, as a stable sort: newest
      first when every lead is timestamped, and the input order untouched
      when none is. */
  function SortNewestFirst(leads: seq<Lead>): (r: seq<Lead>)
    ensures multiset(r) == multiset(leads)
    ensures AllStamped(leads) ==> NewestFirst(r)
    ensures NoneStamped(leads) ==> r == leads
    decreases |leads|
  {
    if |leads| == 0 then []
    else
      var init, last := leads[..|leads| - 1], leads[|leads| - 1];
      assert leads == init + [last];
      var sortedInit := SortNewestFirst(init);
      if last.createdAt.Some? && AllStamped(leads) then
        InsertKeepsNewestFirst(last, sortedInit);
        Insert(last, sortedInit)
      else if last.createdAt.None? then
        InsertUnstamped(last, sortedInit);
        Insert(last, sortedInit)
      else
        Insert(last, sortedInit)
  }

  /** `filteredLeads`: the shown leads, newest first. */
  function VisibleLeads(leads: seq<Lead>, query: string, filter: StatusFilter): (r: seq<Lead>)
    ensures forall l :: l in r <==> l in leads && Shown(l, query, filter)
    ensures multiset(r) == multiset(FilterLeads(leads, query, filter))
    ensures |r| <= |leads|
    ensures AllStamped(leads) ==> NewestFirst(r)
  {
    var shown := FilterLeads(leads, query, filter);
    var keep := l => Shown(l, query, filter);
    assert shown == Seqs.Filter(leads, keep);
    assert multiset(SortNewestFirst(shown)) == multiset(shown);
    assert forall l :: l in SortNewestFirst(shown) <==> l in multiset(shown);
    SortNewestFirst(shown)
  }
}

=== FILE: monthly_report.dfy ===
/** Month navigation of `src/screens/MonthlyReportScreen.tsx`: the selected
    month is a `"YYYY-MM"` string; the arrows parse it, move it by one month
    with a year carry, and write it back zero-padded. */
module MonthlyReport {
  import opened Wrappers
  import opened Text
  import Dates

  /** A calendar month: the year and the month number, January being 1. */
  datatype YearMonth = YearMonth(year: int, month: int)

  /** The position of a month on a single running count of months. */
  function MonthIndex(ym: YearMonth): int {
    ym.year * 12 + (ym.month - 1)
  }

  /** `navigateMonth(direction)` on the parsed pair: past December the
      month resets to January of the next year, before January to December
      of the previous year, otherwise it moves by `direction`. */
  function Navigate(ym: YearMonth, direction: int): (r: YearMonth)
    ensures 1 <= r.month <= 12
  {
    var month := ym.month + direction;
    if month > 12 then YearMonth(ym.year + 1, 1)
    else if month < 1 then YearMonth(ym.year - 1, 12)
    else YearMonth(ym.year, month)
  }

  /** The carry rules, for any direction. */
  lemma NavigateCarry(ym: YearMonth, direction: int)
    ensures 1 <= ym.month + direction <= 12 ==> Navigate(ym, direction) == YearMonth(ym.year, ym.month + direction)
    ensures ym.month + direction > 12 ==> Navigate(ym, direction) == YearMonth(ym.year + 1, 1)
    ensures ym.month + direction < 1 ==> Navigate(ym, direction) == YearMonth(ym.year - 1, 12)
  {
  }

  /** The arrows move to the calendar month just after or just before. */
  lemma NavigateMovesOneMonth(ym: YearMonth, direction: int)
    requires 1 <= ym.month <= 12
    requires direction == 1 || direction == -1
    ensures MonthIndex(Navigate(ym, direction)) == MonthIndex(ym) + direction
  {
  }

  /** Forward then back, or back then forward, returns to the start. */
  lemma NavigateRoundTrip(ym: YearMonth)
    requires 1 <= ym.month <= 12
    ensures Navigate(Navigate(ym, 1), -1) == ym
    ensures Navigate(Navigate(ym, -1), 1) == ym
  {
    NavigateMovesOneMonth(ym, 1);
    NavigateMovesOneMonth(Navigate(ym, 1), -1);
    NavigateMovesOneMonth(ym, -1);
    NavigateMovesOneMonth(Navigate(ym, -1), 1);
    MonthIndexInjective(Navigate(Navigate(ym, 1), -1), ym);
    MonthIndexInjective(Navigate(Navigate(ym, -1), 1), ym);
  }

  lemma MonthIndexInjective(a: YearMonth, b: YearMonth)
    requires 1 <= a.month <= 12 && 1 <= b.month <= 12
    requires MonthIndex(a) == MonthIndex(b)
    ensures a == b
  {
  }

  // ---------------------------------------------------------------------
  // The month string

  /** `` `${year}-${String(month).padStart(2, '0')}` ``. */
  function MonthString(ym: YearMonth): (r: string)
    ensures 1 <= ym.month <= 12 ==> |r| >= 4 && r[|r| - 3] == '-' && NumberOf(r[|r| - 2..]) == Some(ym.month)
    ensures 1 <= ym.month <= 12 && ym.year >= 0 ==> NumberOf(r[..|r| - 3]) == Some(ym.year)
  {
    var year, month := IntToString(ym.year), PadStart2(IntToString(ym.month));
    var r := year + "-" + month;
    assert 1 <= ym.month <= 12 ==> |month| == 2 && NumberOf(month) == Some(ym.month) by {
      if 1 <= ym.month <= 12 {
        PaddedMonth(ym.month);
      }
    }
    assert 1 <= ym.month <= 12 ==> r[|r| - 2..] == month && r[..|r| - 3] == year;
    assert ym.year >= 0 ==> NumberOf(year) == Some(ym.year) by {
      if ym.year >= 0 {
        NumberOfNatToString(ym.year);
      }
    }
    r
  }

  /** A month from 1 to 12 is written as two digits that read back as it. */
  lemma PaddedMonth(month: int)
    requires 1 <= month <= 12
    ensures |PadStart2(IntToString(month))| == 2
    ensures NumberOf(PadStart2(IntToString(month))) == Some(month)
  {
    NumberOfPadded(month);
    if month >= 10 {
      assert NatToString(month) == NatToString(month / 10) + [DigitChar(month % 10)];
    }
  }

  /** The month selected when the screen opens, from the clock's reading
      `now` (whose `month` is the zero-based `getMonth()`). */
  function InitialMonth(now: Dates.Moment): string {
    MonthString(YearMonth(now.year, now.month + 1))
  }

  /** `String(x)` of a number that may be `NaN` (`None`). */
  function NumberString(x: Option<int>): string {
    match x
    case Some(v) => IntToString(v)
    case None => "NaN"
  }

  function NatNumber(x: Option<nat>): Option<int> {
    match x
    case Some(v) => Some(v)
    case None => None
  }

  /** `const [year, month] = s.split('-').map(Number)`: a missing part is
      `undefined`, whose `Number` is `NaN`. */
  function ReadMonthString(s: string): (r: (Option<int>, Option<int>))
    ensures '-' !in s ==> r == (NatNumber(NumberOf(s)), None)
    ensures r.1.Some? ==> '-' in s
  {
    var parts := Split(s, '-');
    assert '-' !in s ==> parts == [s] by {
      if '-' !in s {
        SplitWithoutSeparator(s, '-');
      }
    }
    (NatNumber(NumberOf(parts[0])), if |parts| >= 2 then NatNumber(NumberOf(parts[1])) else None)
  }

  /** The carry of `navigateMonth` on the parsed pair, `NaN` included: a
      `NaN` month fails both comparisons, and `NaN` plus one is `NaN`. */
  function Carry(year: Option<int>, month: Option<int>, direction: int): (Option<int>, Option<int>) {
    var moved := if month.Some? then Some(month.value + direction) else None;
    if moved.Some? && moved.value > 12 then
      (if year.Some? then Some(year.value + 1) else None, Some(1))
    else if moved.Some? && moved.value < 1 then
      (if year.Some? then Some(year.value - 1) else None, Some(12))
    else (year, moved)
  }

  /** The template literal on possibly-`NaN` numbers. */
  function Written(year: Option<int>, month: Option<int>): string {
    NumberString(year) + "-" + PadStart2(NumberString(month))
  }

  /** `navigateMonth(direction)` on the stored string. */
  function NavigateMonthString(s: string, direction: int): (r: string)
    ensures ReadMonthString(s).1.Some? ==>
              && |r| >= 4 && r[|r| - 3] == '-'
              && NumberOf(r[|r| - 2..]).Some? && 1 <= NumberOf(r[|r| - 2..]).value <= 12
    ensures ReadMonthString(s).1.None? ==> |r| >= 4 && r[|r| - 4..] == "-NaN"
  {
    var (year, month) := ReadMonthString(s);
    var (newYear, newMonth) := Carry(year, month, direction);
    var padded := PadStart2(NumberString(newMonth));
    var r := Written(newYear, newMonth);
    assert newMonth.Some? ==> 1 <= newMonth.value <= 12 && |padded| == 2 && NumberOf(padded) == newMonth by {
      if newMonth.Some? {
        PaddedMonth(newMonth.value);
      }
    }
    assert r[|r| - |padded|..] == padded && r[|r| - |padded| - 1] == '-';
    r
  }

  /** Reading back a written month recovers it, for years from 0 on. */
  lemma {:induction false} ReadMonthStringRoundTrip(ym: YearMonth)
    requires ym.year >= 0 && 1 <= ym.month <= 12
    ensures ReadMonthString(MonthString(ym)) == (Some(ym.year), Some(ym.month))
  {
    var a := NatToString(ym.year);
    var b := PadStart2(NatToString(ym.month));
    assert AllDigits(b);
    assert '-' !in a && '-' !in b by {
      assert !IsDigit('-');
    }
    assert MonthString(ym) == Join([a, b], '-');
    SplitJoin([a, b], '-');
    NumberOfNatToString(ym.year);
    NumberOfPadded(ym.month);
  }

  /** On a well-formed string the screen's navigation is `Navigate`. */
  lemma NavigateMonthStringAgrees(ym: YearMonth, direction: int)
    requires ym.year >= 0 && 1 <= ym.month <= 12
    ensures NavigateMonthString(MonthString(ym), direction) == MonthString(Navigate(ym, direction))
  {
    ReadMonthStringRoundTrip(ym);
    NavigateFromRead(MonthString(ym), direction, ym);
  }

  /** A string that reads as `ym` navigates to the string of the month
      `Navigate` moves `ym` to. */
  lemma NavigateFromRead(s: string, direction: int, ym: YearMonth)
    requires ReadMonthString(s) == (Some(ym.year), Some(ym.month))
    ensures NavigateMonthString(s, direction) == MonthString(Navigate(ym, direction))
  {
    var n := Navigate(ym, direction);
    assert Carry(Some(ym.year), Some(ym.month), direction) == (Some(n.year), Some(n.month));
    assert Written(Some(n.year), Some(n.month)) == MonthString(n);
  }

  /** Pressing the forward then the back arrow restores the string. */
  lemma NavigateMonthStringRoundTrip(ym: YearMonth)
    requires ym.year >= 0 && 1 <= ym.month <= 12
    ensures NavigateMonthString(NavigateMonthString(MonthString(ym), 1), -1) == MonthString(ym)
  {
    NavigateMonthStringAgrees(ym, 1);
    NavigateMonthStringAgrees(Navigate(ym, 1), -1);
    NavigateRoundTrip(ym);
  }

  /** The string the screen starts from reads back as the clock's month. */
  lemma InitialMonthReadsBack(now: Dates.Moment)
    requires now.year >= 0 && 0 <= now.month < 12
    ensures ReadMonthString(InitialMonth(now)) == (Some(now.year), Some(now.month + 1))
  {
    ReadMonthStringRoundTrip(YearMonth(now.year, now.month + 1));
  }

  /** A negative year is written with a leading minus sign, which `split`
      then takes for the separator: the year reads as `Number("")`, 0, and
      the month as the year's magnitude. Navigation never reaches this from
      a clock year of 1 or more without passing back through year 0. */
  lemma {:induction false} ReadNegativeYear(ym: YearMonth)
    requires ym.year < 0 && 1 <= ym.month <= 12
    ensures ReadMonthString(MonthString(ym)) == (Some(0), Some(-ym.year))
  {
    var a := NatToString(-ym.year);
    NegativeYearParts(ym);
    NumberOfNatToString(-ym.year);
    assert NumberOf("") == Some(0) && NumberOf(a) == Some(-ym.year);
  }

  /** A negative year's string splits on '-' into three parts: nothing,
      the year's magnitude, and the padded month. */
  lemma NegativeYearParts(ym: YearMonth)
    requires ym.year < 0 && 1 <= ym.month <= 12
    ensures Split(MonthString(ym), '-') == ["", NatToString(-ym.year), PadStart2(NatToString(ym.month))]
  {
    var a, b := NatToString(-ym.year), PadStart2(NatToString(ym.month));
    NegativeYearJoin(ym);
    var parts := ["", a, b];
    assert forall k :: 0 <= k < |parts| ==> '-' !in parts[k];
    SplitJoin(parts, '-');
  }

  /** A negative year's string joins, with '-', nothing, the year's
      magnitude and the padded month, none of which holds a '-'. */
  lemma NegativeYearJoin(ym: YearMonth)
    requires ym.year < 0 && 1 <= ym.month <= 12
    ensures var a, b := NatToString(-ym.year), PadStart2(NatToString(ym.month));
            && '-' !in a && '-' !in b
            && MonthString(ym) == Join(["", a, b], '-')
  {
    var a, b := NatToString(-ym.year), PadStart2(NatToString(ym.month));
    assert AllDigits(b);
    assert '-' !in a && '-' !in b by {
      assert !IsDigit('-');
    }
    assert ["", a, b][1..] == [a, b];
    assert Join([a, b], '-') == a + "-" + b;
    assert IntToString(ym.year) == "-" + a && IntToString(ym.month) == NatToString(ym.month);
    assert MonthString(ym) == "-" + a + "-" + b;
  }
}

=== FILE: seqs.dfy ===
/** Generic sequence notions the screens share: `Array.prototype.filter`
    and the subsequence relation that describes what filtering keeps. */
module Seqs {

  /** `r` is `s` with some elements deleted, the rest kept in order. */
  predicate IsSubsequence<T(==,!new)>(r: seq<T>, s: seq<T>)
    decreases |s|
  {
    if |s| == 0 then |r| == 0
    else
      || (|r| > 0 && r[0] == s[0] && IsSubsequence(r[1..], s[1..]))
      || IsSubsequence(r, s[1..])
  }

  /** `s.filter(p)`: the elements of `s` that satisfy `p`, in their
      original order. */
  function Filter<T>(s: seq<T>, p: T -> bool): (r: seq<T>)
    ensures |r| <= |s|
    ensures forall i :: 0 <= i < |r| ==> p(r[i])
    decreases |s|
  {
    if |s| == 0 then []
    else if p(s[0]) then [s[0]] + Filter(s[1..], p)
    else Filter(s[1..], p)
  }

  /** `list.slice(start, end)` for `0 <= start <= end`: out-of-range bounds
      are clamped to the length. */
  function Slice<T>(list: seq<T>, start: nat, end: nat): (r: seq<T>)
    requires start <= end
    ensures |r| == (if end <= |list| then end - start else if start <= |list| then |list| - start else 0)
    ensures forall k :: 0 <= k < |r| ==> r[k] == list[start + k]
  {
    if start >= |list| then [] else if end >= |list| then list[start..] else list[start..end]
  }

  /** What filtering keeps: a subsequence of the input holding each
      element that satisfies `p` as often as the input does, and nothing
      else. */
  lemma {:induction false} FilterKeeps<T(!new)>(s: seq<T>, p: T -> bool)
    ensures IsSubsequence(Filter(s, p), s)
    ensures forall x :: multiset(Filter(s, p))[x] == if p(x) then multiset(s)[x] else 0
    decreases |s|
  {
    if |s| > 0 {
      FilterKeeps(s[1..], p);
      assert s == [s[0]] + s[1..];
      var rest := Filter(s[1..], p);
      if p(s[0]) {
        assert ([s[0]] + rest)[1..] == rest;
      }
    }
  }

  /** Membership in the filtered sequence: exactly the elements of `s`
      that satisfy `p`. */
  lemma FilterMembers<T(!new)>(s: seq<T>, p: T -> bool)
    ensures forall x :: x in Filter(s, p) <==> x in s && p(x)
  {
    FilterKeeps(s, p);
    forall x
      ensures x in Filter(s, p) <==> x in s && p(x)
    {
      assert x in Filter(s, p) <==> multiset(Filter(s, p))[x] > 0;
      assert x in s <==> multiset(s)[x] > 0;
    }
  }

  /** Filtering distributes over concatenation. */
  lemma {:induction false} FilterAppend<T>(a: seq<T>, b: seq<T>, p: T -> bool)
    ensures Filter(a + b, p) == Filter(a, p) + Filter(b, p)
    decreases |a|
  {
    if |a| == 0 {
      assert a + b == b;
    } else {
      assert (a + b)[1..] == a[1..] + b;
      FilterAppend(a[1..], b, p);
    }
  }

  /** Filtering keeps a sequence whose every element passes. */
  lemma {:induction false} FilterKeepsAll<T>(s: seq<T>, p: T -> bool)
    requires forall i :: 0 <= i < |s| ==> p(s[i])
    ensures Filter(s, p) == s
    decreases |s|
  {
    if |s| > 0 {
      FilterKeepsAll(s[1..], p);
    }
  }
}

=== FILE: text.dfy ===
/** The JavaScript string operations the screens rely on, restricted to
    what the model needs: ASCII case mapping, `includes`/`indexOf`,
    `replace` with a string pattern, `split` on one character, and the
    decimal conversions `String(n)`, `padStart(2, '0')` and `Number(s)`. */
module Text {
  import opened Wrappers

  /** The class `\d` of a JavaScript regular expression. */
  predicate IsDigit(c: char) {
    '0' <= c <= '9'
  }

  predicate AllDigits(s: string) {
    forall i :: 0 <= i < |s| ==> IsDigit(s[i])
  }

  function LowerChar(c: char): char {
    if 'A' <= c <= 'Z' then (c as int + 32) as char else c
  }

  function UpperChar(c: char): char {
    if 'a' <= c <= 'z' then (c as int - 32) as char else c
  }

  /** `s.toLowerCase()` on the ASCII letters. */
  function Lower(s: string): string {
    seq(|s|, i requires 0 <= i < |s| => LowerChar(s[i]))
  }

  /** `s.toUpperCase()` on the ASCII letters. */
  function Upper(s: string): string {
    seq(|s|, i requires 0 <= i < |s| => UpperChar(s[i]))
  }

  // ---------------------------------------------------------------------
  // Searching

  /** `p` occurs in `s` starting at index `i`. */
  predicate OccursAt(s: string, p: string, i: int) {
    0 <= i && i + |p| <= |s| && s[i..i + |p|] == p
  }

  lemma OccursShift(s: string, p: string, j: int)
    requires |s| > 0 && j >= 1
    ensures OccursAt(s, p, j) <==> OccursAt(s[1..], p, j - 1)
  {
    if j + |p| <= |s| {
      assert s[1..][j - 1..j - 1 + |p|] == s[j..j + |p|];
    }
  }

  /** `s.indexOf(p)`: the first index at which `p` occurs, `None` for -1. */
  function IndexOf(s: string, p: string): (r: Option<nat>)
    ensures r.Some? ==> OccursAt(s, p, r.value)
    ensures r.Some? ==> forall j :: 0 <= j < r.value ==> !OccursAt(s, p, j)
    ensures r.None? ==> forall j :: !OccursAt(s, p, j)
    decreases |s|
  {
    if |p| > |s| then None
    else if s[..|p|] == p then Some(0)
    else
      var rest := IndexOf(s[1..], p);
      assert !OccursAt(s, p, 0);
      assert forall j :: j >= 1 ==> (OccursAt(s, p, j) <==> OccursAt(s[1..], p, j - 1)) by {
        forall j | j >= 1 { OccursShift(s, p, j); }
      }
      match rest
      case None => None
      case Some(i) => Some(i + 1)
  }

  /** `s.includes(p)`. */
  predicate Contains(s: string, p: string)
    ensures Contains(s, p) <==> exists i :: OccursAt(s, p, i)
  {
    IndexOf(s, p).Some?
  }

  /** Every string contains the empty string. */
  lemma ContainsEmpty(s: string)
    ensures Contains(s, "")
  {
    assert OccursAt(s, "", 0);
  }

  /** `s.replace(p, rep)` with a string pattern: only the first occurrence
      of `p` is replaced; without one, `s` is returned unchanged. */
  function ReplaceFirst(s: string, p: string, rep: string): (r: string)
    ensures !Contains(s, p) ==> r == s
    ensures Contains(s, p) ==> |r| == |s| - |p| + |rep|
  {
    match IndexOf(s, p)
    case None => s
    case Some(i) => s[..i] + rep + s[i + |p|..]
  }

  /** The occurrence `replace` rewrites is the leftmost one: `p` occurs
      at `i`, nowhere before `i`, and only that stretch is replaced. */
  lemma ReplaceFirstLeftmost(s: string, p: string, rep: string)
    ensures Contains(s, p) ==>
              exists i :: && OccursAt(s, p, i)
                          && (forall j :: 0 <= j < i ==> !OccursAt(s, p, j))
                          && ReplaceFirst(s, p, rep) == s[..i] + rep + s[i + |p|..]
  {
  }

  /** Without an occurrence `replace` leaves the string alone. */
  lemma ReplaceFirstAbsent(s: string, p: string, rep: string)
    requires !Contains(s, p)
    ensures ReplaceFirst(s, p, rep) == s
  {
  }

  /** An occurrence at the very start is the one replaced. */
  lemma ReplaceFirstAtStart(p: string, t: string, rep: string)
    ensures ReplaceFirst(p + t, p, rep) == rep + t
  {
    assert OccursAt(p + t, p, 0) by {
      assert (p + t)[..|p|] == p;
    }
    assert (p + t)[|p|..] == t;
  }

  // ---------------------------------------------------------------------
  // Splitting

  /** `parts.join(sep)`. */
  function Join(parts: seq<string>, sep: char): string
    decreases |parts|
  {
    if |parts| == 0 then ""
    else if |parts| == 1 then parts[0]
    else parts[0] + [sep] + Join(parts[1..], sep)
  }

  /** `s.split(sep)` for a one-character separator: the runs between
      separators, in order, empty runs included; `""` splits into `[""]`. */
  function Split(s: string, sep: char): (parts: seq<string>)
    ensures |parts| >= 1
    ensures forall k :: 0 <= k < |parts| ==> sep !in parts[k]
    ensures Join(parts, sep) == s
    decreases |s|
  {
    if |s| == 0 then [""]
    else
      var rest := Split(s[1..], sep);
      assert s == [s[0]] + s[1..];
      if s[0] == sep then [""] + rest
      else [[s[0]] + rest[0]] + rest[1..]
  }

  lemma {:induction false} SplitWithoutSeparator(s: string, sep: char)
    requires sep !in s
    ensures Split(s, sep) == [s]
    decreases |s|
  {
    if |s| > 0 {
      SplitWithoutSeparator(s[1..], sep);
      assert s == [s[0]] + s[1..];
    }
  }

  lemma {:induction false} SplitAfterWord(w: string, sep: char, t: string)
    requires sep !in w
    ensures Split(w + [sep] + t, sep) == [w] + Split(t, sep)
    decreases |w|
  {
    if |w| == 0 {
      assert (w + [sep] + t)[1..] == t;
    } else {
      assert (w + [sep] + t)[1..] == w[1..] + [sep] + t;
      SplitAfterWord(w[1..], sep, t);
      assert [w[0]] + w[1..] == w;
    }
  }

  /** Splitting undoes joining, when no part holds the separator. */
  lemma {:induction false} SplitJoin(parts: seq<string>, sep: char)
    requires |parts| >= 1
    requires forall k :: 0 <= k < |parts| ==> sep !in parts[k]
    ensures Split(Join(parts, sep), sep) == parts
    decreases |parts|
  {
    if |parts| == 1 {
      SplitWithoutSeparator(parts[0], sep);
    } else {
      SplitJoin(parts[1..], sep);
      SplitAfterWord(parts[0], sep, Join(parts[1..], sep));
      assert parts == [parts[0]] + parts[1..];
    }
  }

  // ---------------------------------------------------------------------
  // Decimal numbers

  function DigitChar(d: nat): char
    requires d < 10
  {
    ('0' as int + d) as char
  }

  /** `String(n)` for a non-negative integer: decimal, no leading zeros. */
  function NatToString(n: nat): (r: string)
    ensures |r| >= 1
    ensures AllDigits(r)
    decreases n
  {
    if n < 10 then [DigitChar(n)] else NatToString(n / 10) + [DigitChar(n % 10)]
  }

  /** `String(i)` for any integer: a minus sign before the magnitude. */
  function IntToString(i: int): string {
    if i < 0 then "-" + NatToString(-i) else NatToString(i)
  }

  /** The value of a run of decimal digits, leading zeros allowed; 0 for "". */
  function DigitsValue(s: string): nat
    requires AllDigits(s)
    decreases |s|
  {
    if |s| == 0 then 0
    else DigitsValue(s[..|s| - 1]) * 10 + (s[|s| - 1] as int - '0' as int)
  }

  /** `Number(s)` on the strings this model gives a value: `""` is 0, a run
      of decimal digits is its value, anything else is `NaN` (`None`). */
  function NumberOf(s: string): Option<nat> {
    if AllDigits(s) then Some(DigitsValue(s)) else None
  }

  /** `s.padStart(2, '0')`. */
  function PadStart2(s: string): string {
    if |s| >= 2 then s else if |s| == 1 then "0" + s else "00"
  }

  /** Reading back what `String(n)` wrote gives `n`. */
  lemma {:induction false} NumberOfNatToString(n: nat)
    ensures NumberOf(NatToString(n)) == Some(n)
    decreases n
  {
    var s := NatToString(n);
    assert AllDigits(s);
    if n < 10 {
      assert s[..|s| - 1] == "";
      assert DigitsValue(s) == n;
    } else {
      NumberOfNatToString(n / 10);
      assert s[..|s| - 1] == NatToString(n / 10);
      assert DigitsValue(s) == (n / 10) * 10 + n % 10;
    }
  }

  /** A leading zero added by `padStart` does not change the value. */
  lemma NumberOfPadded(n: nat)
    ensures NumberOf(PadStart2(NatToString(n))) == Some(n)
  {
    NumberOfNatToString(n);
    if n < 10 {
      var s := PadStart2(NatToString(n));
      assert s == ['0', DigitChar(n)];
      assert s[..1] == "0";
      assert s[..1][..0] == "";
      assert DigitsValue(s[..1]) == 0;
      assert DigitsValue(s) == DigitsValue(s[..1]) * 10 + n;
    }
  }
}

=== FILE: wrappers.dfy ===
/** The optional-value datatype shared by every module of the model.
    `None` stands for a JavaScript value that is `undefined`, absent or
    `NaN`; `Some(v)` for a present value. */
module Wrappers {

  datatype Option<+T> = None | Some(value: T) {

    /** The encapsulated value, or `default` when there is none. */
    function GetOr(default: T): T
    {
      match this
      case Some(v) => v
      case None => default
    }
  }
}
